=== FILE: README.md ===
# Casino lobby games in Dafny

This project models the client-side game rules and the wallet endpoint of a small browser casino lobby:

- **Plinko**: the three 15-slot risk tables, the slot colours, the triangular peg lattice, dropping a ball (bet debit and ball creation), the per-frame motion with its wall clamp, and the payout of a ball that crosses the slot line.
- **Blackjack**: the 52-card deck, the ace-softening score, chip betting and undo, dealing, the player's bust and auto-stand check, the dealer's draw-to-17 rule and the settlement table.
- **Glass bridge**: a nine-step crossing. The state machine runs betting → playing → game over or cashed out, and `k` completed steps are worth `bet * 2^k`.
- **Wallet**: the `POST` action dispatch (`balance`, `deposit`, `withdraw`, `bet`, `payout`, anything else). The wallet table is a map from user id to balance.

Files:

- `common.dfy`: `Option` and `Pow2`.
- `plinko.dfy`: module `Plinko`.
- `blackjack.dfy`: module `Blackjack`.
- `glass_bridge.dfy`: module `GlassBridge`.
- `wallet.dfy`: module `Wallet`.

Every game operation is a pure function over an immutable state record; the peg generator and the deck builder are methods with loops, as in the game. Money is an exact `real`. The random inputs become parameters:

- the two `Math.random` draws of a Plinko drop;
- the shuffled deck dealt in blackjack;
- the glass bridge's safe path.

Every `setTimeout` delay is an immediate transition.

Three facts about the code that a reader might not expect:

- The low multiplier table is not symmetric: slot 5 pays 1 and its mirror, slot 9, pays 0.3. The medium and high tables are symmetric. `Plinko.TableSymmetry` proves all three facts.
- The slot index is not clamped. The slots cover only x in [100, 700), so a ball that crosses the slot line at x in [0, 100) or [700, 800] is retired and paid nothing (`Plinko.WallBallsPayNothing`).
- The number of peg rows is fixed at 14 for every risk tier.

## Model

| member | source | states |
|---|---|---|
| Plinko.Multipliers | app/Plinko/page.tsx:37-41 | each risk tier's table has exactly `rows + 1 = 15` entries, all positive |
| Plinko.TableSymmetry | app/Plinko/page.tsx:38-40 | the medium and high tables read the same from both ends; the low table does not (index 5 is 1, index 9 is 0.3) |
| Plinko.SlotColorOf | app/Plinko/page.tsx:43-48 | red exactly when the multiplier is >= 10, orange on [3, 10), yellow on [1, 3), light yellow below 1 |
| Plinko.SlotColorMonotone | app/Plinko/page.tsx:43-48 | a larger multiplier never gets a cooler colour |
| Plinko.MediumTableColors | app/Plinko/page.tsx:37-48 | on the medium table the edge slots are red and the five centre slots light yellow |
| Plinko.GeneratePegs | app/Plinko/page.tsx:92-109 | the generator emits rows top to bottom and pegs left to right; peg `c` of row `r` is at the lattice position for `(r, c)`, and the list holds exactly the pegs of all rows |
| Plinko.LatticeGeometry | app/Plinko/page.tsx:96-106 | row `r` sits at `y = 60 + 40 r`; its pegs are 40 apart; pegs `c` and `r + 2 - c` are mirror images about `x = 400`, so the row is centred |
| Plinko.PegsBeforeClosedForm | app/Plinko/page.tsx:96-107 | rows `0 .. r-1` hold `r (r + 5) / 2` pegs in all (row `r` holds `r + 3`) |
| Plinko.PegTotals | app/Plinko/page.tsx:96-107 | 14 rows give 133 pegs; 5 rows give 25 |
| Plinko.SetRisk | app/Plinko/page.tsx:144 | changing to a different risk tier selects that tier's table and switches auto-play off, leaving balance, bet and live balls alone; picking the tier already selected changes nothing, auto-play included |
| Plinko.DropBall | app/Plinko/page.tsx:112-132 | with `balance < bet`: no ball, balance unchanged, auto-play off. Otherwise: exactly `bet` debited; one active ball appended after the existing ones, with `val = bet` and the next id; the id counter advances; the drop point is within 5 of the centre |
| Plinko.DropPreservesValid | app/Plinko/page.tsx:121-131 | live balls stay active with strictly increasing ids below the counter, so every new id is fresh |
| Plinko.AutoPlayHalts | app/Plinko/page.tsx:113-116 | auto-play with balance 5 and bet 10 creates no ball, keeps the balance at 5 and stops itself |
| Plinko.WallClamp | app/Plinko/page.tsx:202-203 | after the clamp `0 <= x <= 800`; a clamped ball's `vx` is multiplied by -0.5; a ball already inside is untouched |
| Plinko.Move | app/Plinko/page.tsx:197-203 | a frame's motion adds gravity to `vy` and moves `y` by the new `vy`; it damps `vx` by 0.98 and moves `x` by the damped `vx` when that stays inside the walls, and otherwise puts the ball on the wall with the damped `vx` reversed and halved; it never changes a ball's id, stake or activity |
| Plinko.ClampedBallHeadsInward | app/Plinko/page.tsx:198-203 | a ball inside the walls that the clamp pushes back leaves moving back into the board |
| Plinko.BucketIndex | app/Plinko/page.tsx:226-227 | the slot index of `x` is the `i` whose strip `[100 + 40 i, 140 + 40 i)` holds `x`, whether or not that slot exists |
| Plinko.Payout | app/Plinko/page.tsx:229-231 | a ball that has not crossed the slot line, or crossed it outside the table's slots, is paid nothing; a ball crossing in the strip of slot `i` is paid `val * multiplier[i]`; the payout is never negative for a non-negative stake and table |
| Plinko.TotalPayout | app/Plinko/page.tsx:232 | a frame in which no ball is credited pays nothing; for non-negative stakes and multipliers the total is never negative |
| Plinko.BucketIndexStrip | app/Plinko/page.tsx:226-227 | `floor((x - 100) / 40) = i` exactly when `100 + 40 i <= x < 140 + 40 i` |
| Plinko.LabelMatchesBucket | app/Plinko/page.tsx:171-176 | the centre of slot box `i`, where its label is drawn, resolves to bucket `i`, so labels and payouts agree |
| Plinko.ResolveBalls | app/Plinko/page.tsx:225-248 | the balls kept are exactly the active balls that have not crossed the slot line; the credit is the sum over crossing balls of `val * multiplier[index]`, counting only indices in `[0, 15)`; the last win is `Plinko.LastWin`, the payout of the last ball in the list that is credited (a ball crossing outside the slots changes nothing), and stays as it was when no ball is credited |
| Plinko.LastWinIsLastCredited | app/Plinko/page.tsx:228-233 | when ball `k` is credited and no ball after it is, the last win shown is ball `k`'s payout, wherever `k` sits in the list |
| Plinko.LastWinUncredited | app/Plinko/page.tsx:228-233 | a frame with no credited ball leaves the last win as it was |
| Plinko.Frame | app/Plinko/page.tsx:193-250 | a frame credits the balance with the total payout of the crossing balls and keeps exactly the balls still falling; the last win becomes the payout of the last credited ball (unchanged when none is credited); the bet, risk tier, id counter and auto-play flag are unchanged |
| Plinko.ResolveKeepsOrder | app/Plinko/page.tsx:248 | filtering keeps the surviving balls in order, so their ids stay strictly increasing |
| Plinko.FramePreservesValid | app/Plinko/page.tsx:244-250 | after a frame every live ball is still active, with strictly increasing ids below the counter |
| Plinko.ResolvedAtMostOnce | app/Plinko/page.tsx:244-248 | a ball that crossed the slot line in a frame is no longer live afterwards, so it is paid at most once |
| Plinko.MediumTableScenarios | app/Plinko/page.tsx:229-231 | on the medium table a stake of 10 pays 2 in the centre slot and 130 in the edge slot |
| Plinko.WallBallsPayNothing | app/Plinko/page.tsx:229 | a crossing ball at `x = 0` or `x = 800` has no slot on the table and is paid nothing |
| Plinko.SingleDropConservation | app/Plinko/page.tsx:225-232 | drop then resolve one ball: `balance_after = balance_before - bet + bet * multiplier[index]`, and no ball is left |
| Blackjack.CreateDeck | app/Blackjack/page.tsx:27-36 | the unshuffled deck has 52 cards; card `k` has suit `k / 13` and face `k % 13`, with that face's weight |
| Blackjack.DeckCardPosition | app/Blackjack/page.tsx:29-34 | each (suit, face) pair appears in the deck, at position `13 * suit + face` |
| Blackjack.DeckDistinct | app/Blackjack/page.tsx:29-35 | no two positions of the deck hold the same card |
| Blackjack.DeckWeights | app/Blackjack/page.tsx:31-33 | number cards weigh their number, J/Q/K weigh 10, an ace weighs 11, and only an ace weighs 11 |
| Blackjack.RawSum | app/Blackjack/page.tsx:41 | the sum of the card weights with every ace at 11 (its bound is stated by `Blackjack.RawSumCoversAces`) |
| Blackjack.AceCount | app/Blackjack/page.tsx:42 | the number of aces in a hand, never more than its size |
| Blackjack.RawSumCoversAces | app/Blackjack/page.tsx:41-42 | in a hand of dealt cards (weights at least 0, every ace 11) the raw sum is at least 11 per ace, so demoting every ace never goes below 0 |
| Blackjack.AceFree | app/Blackjack/page.tsx:40-48 | the ace count is 0 exactly when no card is an ace, and such a hand scores its raw sum |
| Blackjack.Score | app/Blackjack/page.tsx:40-48 | the score is the raw sum less 10 for at most every ace; it is at most 21 unless every ace has been demoted; a hand without aces scores its raw sum |
| Blackjack.Demote | app/Blackjack/page.tsx:43-46 | the result is `raw - 10 k` with `0 <= k <= aces`; it is <= 21 or has every ace demoted; it stops at the first value <= 21 |
| Blackjack.ScoreIsBest | app/Blackjack/page.tsx:40-48 | when some `raw - 10 k` (with `k <= aces`) is at most 21, the score is at most 21 and at least that value |
| Blackjack.ScoreAllDemoted | app/Blackjack/page.tsx:43-47 | when even all aces at 1 bust, the score is the sum with every ace demoted |
| Blackjack.TwoCardScores | app/Blackjack/page.tsx:40-48 | an ace with a ten-weight card scores 21; two aces score 12 |
| Blackjack.Settle | app/Blackjack/page.tsx:80-96 | outcomes are tried in order: blackjack, player over 21, dealer over 21, player higher, player lower, tie; each holds exactly under its condition |
| Blackjack.Credit | app/Blackjack/page.tsx:80-96 | blackjack pays `2.5 * bet`; a dealer bust or a player win pays `2 * bet`; a push returns `bet`; a bust or a loss pays 0 |
| Blackjack.SettlementBounds | app/Blackjack/page.tsx:83-84 | a busted player gets nothing even when the dealer also busts; no credit exceeds `2.5 * bet`, or `2 * bet` without a blackjack |
| Blackjack.AddToBet | app/Blackjack/page.tsx:62-67 | acts only when `balance >= amount`, moving `amount` from balance to bet; `balance + currentBet` is preserved; the balance never goes negative |
| Blackjack.ClearBet | app/Blackjack/page.tsx:69-72 | the bet returns to the balance: `balance + currentBet` is preserved and the bet becomes 0 |
| Blackjack.UndoRestoresBalance | app/Blackjack/page.tsx:62-72 | any run of chips followed by undo leaves the balance as it was before the first chip |
| Blackjack.AddChipsConserves | app/Blackjack/page.tsx:62-67 | betting any run of chips preserves `balance + currentBet` |
| Blackjack.GameOverWith | app/Blackjack/page.tsx:75-97 | settling ends the round and credits the balance with the settlement of the two hands' scores |
| Blackjack.Deal | app/Blackjack/page.tsx:99-121 | with no bet the deal is refused and only the message changes. Otherwise the player gets the top two cards, the dealer the next two, and the deck loses those four. A two-card 21 settles at once as a blackjack paying `2.5 * bet`; any other hand starts play with the balance unchanged |
| Blackjack.DealConservesCards | app/Blackjack/page.tsx:105-109 | dealing neither creates nor loses a card: deck plus both hands is the shuffled deck |
| Blackjack.Hit | app/Blackjack/page.tsx:123-129 | the top card of the deck moves to the end of the player's hand |
| Blackjack.WatchPlayer | app/Blackjack/page.tsx:136-155 | during play, over 21 ends the round with nothing credited; 21 on more than two cards hands over to the dealer; otherwise nothing changes |
| Blackjack.BustEndsRound | app/Blackjack/page.tsx:139-145 | a hit that takes the player over 21 ends the round with the balance unchanged |
| Blackjack.Stand | app/Blackjack/page.tsx:131-133 | standing hands the turn to the dealer with hands and balance untouched |
| Blackjack.DealerDraw | app/Blackjack/page.tsx:167-172 | the dealer draws from the top of the deck while the score is below 17: every intermediate hand scores below 17, the final hand scores at least 17, and the cards drawn are exactly those removed from the deck; no draw (`None`) happens only when the deck runs out first: the score stays below 17 after every card taken, the last card of the deck included |
| Blackjack.AceOnTopStopsDealer | app/Blackjack/page.tsx:167-172 | with 9 in hand and an ace on top of a deck holding a 5 below it, the dealer stops at a soft 20 and the 5 stays in the deck |
| Blackjack.DealerStopsAt17 | app/Blackjack/page.tsx:167-172 | a completed dealer draw ends at 17 or more, and a dealer below 17 draws at least one card |
| Blackjack.DealerTurnStep | app/Blackjack/page.tsx:158-180 | the dealer's turn ends the round with the dealer's hand and the deck exactly as the draw left them, the dealer at 17 or more, the player's hand and bet unchanged, crediting the settlement of player against dealer |
| Blackjack.ResetGame | app/Blackjack/page.tsx:182-188 | a new round clears both hands and the bet without refunding it; the balance is unchanged |
| GlassBridge.Initial | app/Glassfloor/page.tsx:15-22 | the game starts in betting at step 0 with the given balance and bet, and nine move slots all empty |
| GlassBridge.StartGame | app/Glassfloor/page.tsx:25-36 | a bet above the balance changes nothing. Otherwise: the bet is debited; the safe path (9 entries, each 0 or 1) is installed; the step is reset to 0 and all moves to empty; play starts |
| GlassBridge.Jump | app/Glassfloor/page.tsx:38-51 | the choice is recorded at the current step. A wrong pane ends the game with nothing paid. A right pane advances the step, or after the ninth step cashes out `bet * 2^9`. The step stays in `[0, 9)` while playing |
| GlassBridge.CashOut | app/Glassfloor/page.tsx:53-58 | cashing out 0 steps does nothing; `k > 0` steps credits exactly `bet * 2^k` and ends the game as cashed out |
| GlassBridge.CashOutNow | app/Glassfloor/page.tsx:212-215 | the cash-out button pays exactly the current winnings its label shows |
| GlassBridge.Winnings | app/Glassfloor/page.tsx:55 | zero steps are worth the bet; for a non-negative bet `k` steps are worth at least the bet, and at least twice the bet after one step or more |
| GlassBridge.PotentialWin | app/Glassfloor/page.tsx:60 | the next step is worth twice the winnings of the steps already survived |
| GlassBridge.CurrentWinnings | app/Glassfloor/page.tsx:61 | the winnings on offer are `bet * 2^step` after at least one step, and 0 before |
| GlassBridge.PotentialDoublesCurrent | app/Glassfloor/page.tsx:60-61 | the potential win is always double the non-zero current winnings |
| GlassBridge.FullCrossingValue | app/Glassfloor/page.tsx:9-10 | nine completed steps are worth `512 * bet` |
| GlassBridge.FollowPathCashesOut | app/Glassfloor/page.tsx:43-46 | from any step, choosing the safe pane every time cashes out all nine steps |
| GlassBridge.FullCrossingNet | app/Glassfloor/page.tsx:25-58 | bet, then cross the whole bridge: the balance ends `511 * bet` higher |
| GlassBridge.CashOutNet | app/Glassfloor/page.tsx:53-58 | cashing out `k > 0` steps after the bet nets `bet * (2^k - 1)` |
| GlassBridge.NewRound | app/Glassfloor/page.tsx:223 | after a finished game, a new round returns to betting with the balance kept |
| Wallet.ParseAction | app/api/wallet/route.ts:26-45 | each of the five action names selects its action; every other string is unknown |
| Wallet.Apply | app/api/wallet/route.ts:24-45 | `balance` and unknown actions leave the balance alone; `deposit` and `payout` add the amount; `withdraw` gives 0; `bet` below the amount is refused; otherwise `bet` takes the amount off, leaving a result >= 0 |
| Wallet.Post | app/api/wallet/route.ts:4-52 | a missing user id is a 400 and a missing wallet a 404, both with no write; every error writes nothing; a success reports exactly the stored balance; no other user's wallet changes |
| Wallet.PostActions | app/api/wallet/route.ts:24-47 | per action: the response and the stored wallet for `balance`/unknown, `deposit`, `payout`, `withdraw` and `bet`, including "Insufficient funds" with nothing written |
| Wallet.BetThenPayoutRestores | app/api/wallet/route.ts:37-45 | a bet followed by a payout of the same amount leaves the wallet table as it was |
| Wallet.DepositThenBetRestores | app/api/wallet/route.ts:29-41 | a deposit into a non-negative wallet can be bet again in full, restoring the table |
| Wallet.BalancesStayNonNegative | app/api/wallet/route.ts:37-40 | with non-negative amounts no request drives a non-negative wallet negative |

## Left out

- Peg collisions in Plinko are not modelled. They use square roots, angles and random deflection in floating point. A frame's motion after collisions is an input to `Plinko.Frame`, which may change a ball's position and speed but not its id, stake or activity.
- Floating point is not modelled. Money, multipliers and positions are exact reals, so the rounding of `0.98`, `1.5` or `0.3` in doubles is absent.
- The random draws are inputs: the Plinko drop jitter, the blackjack shuffle and the glass bridge's safe path. Each random draw is taken to lie in `[0, 1)`. The shuffled deck only has to hold 52 cards; it need not be a permutation of the fresh deck.
- Auto-play timing (`setInterval`), animation frames and every `setTimeout` delay are left out. Delays are immediate transitions, and one auto-play tick is one `Plinko.DropBall`.
- Canvas drawing, floating win texts, JSX layout and the mode toggle are left out.
- Bet and balance inputs in Plinko and the glass bridge are left out. Plinko's halving and doubling buttons and the bridge's number field only set the bet that the model takes as given.
- Blackjack.Hit: requires a non-empty deck. The game asserts a card is there and never checks.
- Blackjack.DealerDraw: returns `None` when the deck runs out while the dealer is below 17, that is when no hand along the draw, the one holding the whole deck included, reaches 17. The game has no card to draw there and the round never settles; `Blackjack.DealerTurnStep` then leaves the table as it was.
- Wallet.Post: one request is one atomic step. The endpoint awaits the SELECT and later issues a separate UPDATE with no transaction, so two concurrent `bet` requests can both pass the funds check and one debit is then lost; the model does not capture interleaved requests.
- Wallet: the database SELECT and UPDATE are a map lookup and a map update. A thrown exception (status 500) is not modelled. `parseFloat` is not modelled: the amount is a number already, so `NaN` amounts are absent. The request field `userId` is a string, with the empty string standing for any false-valued id.
- The signup and login endpoints, the database pool and the lobby, landing and signup pages are left out. They hold database CRUD, `fetch` calls and `localStorage` only.

=== FILE: blackjack.dfy ===
/**
 * Blackjack: the deck, the ace-softening score, chip betting, dealing, the
 * player's bust / auto-stand check, the dealer's draw-to-17 rule and the
 * settlement table.
 *
 * The shuffle is not modelled: dealing takes the shuffled deck as input.
 * Every delay in the game is an immediate transition here.  Money is an
 * exact real.
 */
module Blackjack {
  import opened Common

  datatype Suit = Spades | Hearts | Diamonds | Clubs

  /** A card's face: a number card 2..10, a court card or an ace. */
  datatype Face = Pip(n: nat) | Jack | Queen | King | Ace

  /** A card carries the weight it was created with, as in the game. */
  datatype Card = Card(suit: Suit, value: Face, weight: int)

  const SUITS: seq<Suit> := [Spades, Hearts, Diamonds, Clubs]
  const VALUES: seq<Face> :=
    [Pip(2), Pip(3), Pip(4), Pip(5), Pip(6), Pip(7), Pip(8), Pip(9), Pip(10), Jack, Queen, King, Ace]
  const DECK_SIZE: nat := 52

  /** Weight of a face: a number card its number, a court card 10, an ace 11. */
  function FaceWeight(f: Face): int {
    match f
    case Pip(n) => n
    case Jack => 10
    case Queen => 10
    case King => 10
    case Ace => 11
  }

  /** Card `k` of the unshuffled deck: suits in order, thirteen faces each. */
  function DeckCard(k: nat): Card
    requires k < DECK_SIZE
  {
    var v := VALUES[k % 13];
    Card(SUITS[k / 13], v, FaceWeight(v))
  }

  /** The unshuffled deck, suit by suit. */
  method CreateDeck() returns (deck: seq<Card>)
    ensures |deck| == DECK_SIZE
    ensures forall k :: 0 <= k < |deck| ==> deck[k] == DeckCard(k)
  {
    deck := [];
    var si := 0;
    while si < |SUITS|
      invariant si <= |SUITS|
      invariant |deck| == 13 * si
      invariant forall k :: 0 <= k < |deck| ==> deck[k] == DeckCard(k)
    {
      var vi := 0;
      while vi < |VALUES|
        invariant vi <= |VALUES|
        invariant |deck| == 13 * si + vi
        invariant forall k :: 0 <= k < |deck| ==> deck[k] == DeckCard(k)
      {
        var value := VALUES[vi];
        var weight := FaceWeight(value);
        deck := deck + [Card(SUITS[si], value, weight)];
        vi := vi + 1;
      }
      si := si + 1;
    }
  }

  /** Card `k` of the deck sits at suit `k / 13`, face `k % 13`. */
  lemma DeckCardPosition(s: int, v: int)
    requires 0 <= s < 4 && 0 <= v < 13
    ensures 13 * s + v < DECK_SIZE
    ensures DeckCard(13 * s + v) == Card(SUITS[s], VALUES[v], FaceWeight(VALUES[v]))
  {
    assert (13 * s + v) / 13 == s && (13 * s + v) % 13 == v;
  }

  /** The deck holds each (suit, face) pair exactly once. */
  lemma DeckDistinct(i: nat, j: nat)
    requires i < j < DECK_SIZE
    ensures DeckCard(i) != DeckCard(j)
  {
    var si, vi, sj, vj := i / 13, i % 13, j / 13, j % 13;
    assert i == 13 * si + vi && j == 13 * sj + vj;
    if si == sj {
      assert vi != vj;
      assert VALUES[vi] != VALUES[vj];
    } else {
      assert SUITS[si] != SUITS[sj];
    }
  }

  /** Every card of the deck weighs its face's weight: a number card its
      number (2..10), a court card 10, an ace 11, and only an ace weighs 11. */
  lemma DeckWeights(k: nat)
    requires k < DECK_SIZE
    ensures DeckCard(k).weight == FaceWeight(DeckCard(k).value)
    ensures 2 <= DeckCard(k).weight <= 11
    ensures DeckCard(k).value == Ace <==> DeckCard(k).weight == 11
    ensures DeckCard(k).value in {Jack, Queen, King} ==> DeckCard(k).weight == 10
    ensures DeckCard(k).value.Pip? ==> DeckCard(k).weight == DeckCard(k).value.n
  {
  }

  // ---------------------------------------------------------------------
  // Scoring
  // ---------------------------------------------------------------------

  /** Every card weighs at least 0 and every ace 11, as in a dealt deck. */
  predicate WellWeighed(hand: seq<Card>) {
    forall i :: 0 <= i < |hand| ==> hand[i].weight >= 0 && (hand[i].value == Ace ==> hand[i].weight == 11)
  }

  /** A hand without aces. */
  predicate NoAces(hand: seq<Card>) {
    forall i :: 0 <= i < |hand| ==> hand[i].value != Ace
  }

  /** Sum of the weights of a hand, every ace counted as 11. */
  function RawSum(hand: seq<Card>): int {
    if |hand| == 0 then 0 else RawSum(hand[..|hand| - 1]) + hand[|hand| - 1].weight
  }

  /** Number of aces in a hand. */
  function AceCount(hand: seq<Card>): (n: nat)
    ensures n <= |hand|
  {
    if |hand| == 0 then 0
    else AceCount(hand[..|hand| - 1]) + (if hand[|hand| - 1].value == Ace then 1 else 0)
  }

  /** In a hand of dealt cards the aces alone make up 11 each of the raw
      sum, so demoting every ace never takes the sum below 0. */
  lemma {:induction false} RawSumCoversAces(hand: seq<Card>)
    requires WellWeighed(hand)
    ensures RawSum(hand) >= 11 * AceCount(hand)
  {
    if |hand| > 0 {
      RawSumCoversAces(hand[..|hand| - 1]);
    }
  }

  /** A hand has no aces exactly when its ace count is 0, so its score is
      its raw sum. */
  lemma {:induction false} AceFree(hand: seq<Card>)
    ensures AceCount(hand) == 0 <==> NoAces(hand)
    ensures NoAces(hand) ==> Score(hand) == RawSum(hand)
  {
    if |hand| > 0 {
      AceFree(hand[..|hand| - 1]);
    }
  }

  /** Count aces as 1 instead of 11, one at a time, while the score is over
      21 and aces remain.  The result is `score - 10 * k` for some `k` up to
      `aces`: the first such value that is 21 or less, or every ace demoted
      when none is. */
  function Demote(score: int, aces: nat): (r: int)
    ensures r <= score && (score - r) % 10 == 0 && score - r <= 10 * aces
    ensures r <= 21 || r == score - 10 * aces
    ensures r == score || r + 10 > 21
  {
    if score > 21 && aces > 0 then Demote(score - 10, aces - 1) else score
  }

  /** Score of a hand with the aces softened. */
  function Score(hand: seq<Card>): (s: int)
    ensures s <= RawSum(hand) && RawSum(hand) - s <= 10 * AceCount(hand)
    ensures s <= 21 || s == RawSum(hand) - 10 * AceCount(hand)
    ensures AceCount(hand) == 0 ==> s == RawSum(hand)
  {
    Demote(RawSum(hand), AceCount(hand))
  }

  /** The score is the largest value `RawSum - 10 k` (0 <= k <= aces) that is
      at most 21, when there is one. */
  lemma ScoreIsBest(hand: seq<Card>, k: nat)
    requires k <= AceCount(hand) && RawSum(hand) - 10 * k <= 21
    ensures RawSum(hand) - 10 * k <= Score(hand) <= 21
  {
  }

  /** When even all aces at 1 leave the hand over 21, the score is that bust
      total. */
  lemma ScoreAllDemoted(hand: seq<Card>)
    requires RawSum(hand) - 10 * AceCount(hand) > 21
    ensures Score(hand) == RawSum(hand) - 10 * AceCount(hand)
  {
  }

  /** An ace with a ten-weight card is 21; two aces are 12. */
  lemma TwoCardScores(s1: Suit, s2: Suit, f: Face)
    requires FaceWeight(f) == 10
    ensures Score([Card(s1, Ace, 11), Card(s2, f, 10)]) == 21
    ensures Score([Card(s1, Ace, 11), Card(s2, Ace, 11)]) == 12
  {
    var ace := [Card(s1, Ace, 11)];
    assert ace[..0] == [];
    assert RawSum(ace) == 11 && AceCount(ace) == 1;
    var h1 := [Card(s1, Ace, 11), Card(s2, f, 10)];
    assert h1[..1] == ace;
    assert RawSum(h1) == 21 && AceCount(h1) == 1;
    var h2 := [Card(s1, Ace, 11), Card(s2, Ace, 11)];
    assert h2[..1] == ace;
    assert RawSum(h2) == 22 && AceCount(h2) == 2;
  }

  // ---------------------------------------------------------------------
  // Settlement
  // ---------------------------------------------------------------------

  datatype Outcome = Natural | PlayerBust | DealerBust | PlayerWins | DealerWins | Push

  /** The settlement branches, tried in order: a natural blackjack, the
      player over 21, the dealer over 21, then the comparison of scores. */
  function Settle(pScore: int, dScore: int, blackjack: bool): (o: Outcome)
    ensures o == Natural <==> blackjack
    ensures o == PlayerBust <==> !blackjack && pScore > 21
    ensures o == DealerBust <==> !blackjack && pScore <= 21 && dScore > 21
    ensures o == PlayerWins <==> !blackjack && dScore < pScore <= 21
    ensures o == DealerWins <==> !blackjack && pScore < dScore <= 21
    ensures o == Push <==> !blackjack && pScore == dScore <= 21
  {
    if blackjack then Natural
    else if pScore > 21 then PlayerBust
    else if dScore > 21 then DealerBust
    else if pScore > dScore then PlayerWins
    else if pScore < dScore then DealerWins
    else Push
  }

  /** What the balance is credited for an outcome, the stake having been
      taken when it was bet: stake plus 3:2 on a natural, twice the stake on
      a win, the stake back on a push, nothing on a loss. */
  function Credit(o: Outcome, bet: real): (c: real)
    ensures o == Natural ==> c == 2.5 * bet
    ensures o in {DealerBust, PlayerWins} ==> c == 2.0 * bet
    ensures o == Push ==> c == bet
    ensures o in {PlayerBust, DealerWins} ==> c == 0.0
  {
    match o
    case Natural => bet + bet * 1.5
    case PlayerBust => 0.0
    case DealerBust => bet * 2.0
    case PlayerWins => bet * 2.0
    case DealerWins => 0.0
    case Push => bet
  }

  /** A busted player loses the stake even when the dealer busts too, and no
      settlement pays more than 2.5 times a non-negative stake. */
  lemma SettlementBounds(pScore: int, dScore: int, blackjack: bool, bet: real)
    requires bet >= 0.0
    ensures !blackjack && pScore > 21 ==> Credit(Settle(pScore, dScore, blackjack), bet) == 0.0
    ensures 0.0 <= Credit(Settle(pScore, dScore, blackjack), bet) <= 2.5 * bet
    ensures !blackjack ==> Credit(Settle(pScore, dScore, blackjack), bet) <= 2.0 * bet
  {
  }

  // ---------------------------------------------------------------------
  // The table
  // ---------------------------------------------------------------------

  datatype Phase = Betting | Playing | DealerTurn | GameOver

  datatype Message = Blank | PlaceBet | WentOver | Settled(outcome: Outcome)

  datatype Table = Table(
    deck: seq<Card>,
    player: seq<Card>,
    dealer: seq<Card>,
    phase: Phase,
    balance: real,
    currentBet: real,
    message: Message)

  /** Put a chip on the bet, when the balance covers it. */
  function AddToBet(t: Table, amount: real): (t': Table)
    ensures t'.balance + t'.currentBet == t.balance + t.currentBet
    ensures t.balance >= amount ==> t'.currentBet == t.currentBet + amount && t'.balance == t.balance - amount
    ensures t.balance < amount ==> t' == t
    ensures t.balance >= 0.0 ==> t'.balance >= 0.0
  {
    if t.balance >= amount then
      t.(balance := t.balance - amount, currentBet := t.currentBet + amount)
    else t
  }

  /** Take the whole bet back into the balance. */
  function ClearBet(t: Table): (t': Table)
    ensures t'.balance + t'.currentBet == t.balance + t.currentBet
    ensures t'.currentBet == 0.0
    ensures t'.phase == t.phase && t'.player == t.player && t'.dealer == t.dealer
  {
    t.(balance := t.balance + t.currentBet, currentBet := 0.0)
  }

  /** Undo after any number of chips: the balance is what it was before the
      first chip. */
  lemma UndoRestoresBalance(t: Table, amounts: seq<real>)
    requires t.currentBet == 0.0
    ensures ClearBet(AddChips(t, amounts)).balance == t.balance
  {
    AddChipsConserves(t, amounts);
  }

  /** Betting a sequence of chips in order. */
  function AddChips(t: Table, amounts: seq<real>): Table
    decreases |amounts|
  {
    if |amounts| == 0 then t else AddChips(AddToBet(t, amounts[0]), amounts[1..])
  }

  lemma {:induction false} AddChipsConserves(t: Table, amounts: seq<real>)
    ensures AddChips(t, amounts).balance + AddChips(t, amounts).currentBet == t.balance + t.currentBet
    decreases |amounts|
  {
    if |amounts| > 0 {
      AddChipsConserves(AddToBet(t, amounts[0]), amounts[1..]);
    }
  }

  /** Settle the round for the hands on the table. */
  function GameOverWith(t: Table, player: seq<Card>, dealer: seq<Card>, blackjack: bool): (t': Table)
    ensures t'.phase == GameOver
    ensures t'.balance == t.balance + Credit(Settle(Score(player), Score(dealer), blackjack), t.currentBet)
    ensures t'.message == Settled(Settle(Score(player), Score(dealer), blackjack))
    ensures t'.deck == t.deck && t'.player == t.player && t'.dealer == t.dealer && t'.currentBet == t.currentBet
  {
    var o := Settle(Score(player), Score(dealer), blackjack);
    t.(phase := GameOver, message := Settled(o), balance := t.balance + Credit(o, t.currentBet))
  }

  /** Deal from a freshly shuffled deck.  With no bet the deal is refused.
      Otherwise two cards go to the player and two to the dealer, each taken
      from the top (the end) of the deck; a two-card 21 settles at once as a
      natural. */
  function Deal(t: Table, shuffled: seq<Card>): (t': Table)
    requires |shuffled| == DECK_SIZE
    ensures t.currentBet == 0.0 ==> t' == t.(message := PlaceBet)
    ensures t.currentBet != 0.0 ==>
      && t'.player == [shuffled[51], shuffled[50]]
      && t'.dealer == [shuffled[49], shuffled[48]]
      && t'.deck + [shuffled[48], shuffled[49], shuffled[50], shuffled[51]] == shuffled
      && t'.currentBet == t.currentBet
    ensures t.currentBet != 0.0 && Score(t'.player) == 21 ==>
      t'.phase == GameOver && t'.message == Settled(Natural) && t'.balance == t.balance + 2.5 * t.currentBet
    ensures t.currentBet != 0.0 && Score(t'.player) != 21 ==>
      t'.phase == Playing && t'.balance == t.balance
  {
    if t.currentBet == 0.0 then
      t.(message := PlaceBet)
    else
      var n := |shuffled|;
      var player := [shuffled[n - 1], shuffled[n - 2]];
      var dealer := [shuffled[n - 3], shuffled[n - 4]];
      var dealt := t.(deck := shuffled[..n - 4], player := player, dealer := dealer,
                      phase := Playing, message := Blank);
      if Score(player) == 21 then GameOverWith(dealt, player, dealer, true) else dealt
  }

  /** Deal moves cards, it never creates or loses one. */
  lemma DealConservesCards(t: Table, shuffled: seq<Card>)
    requires |shuffled| == DECK_SIZE && t.currentBet != 0.0
    ensures var t' := Deal(t, shuffled);
      multiset(t'.deck) + multiset(t'.player) + multiset(t'.dealer) == multiset(shuffled)
  {
    var t' := Deal(t, shuffled);
    assert shuffled == t'.deck + [shuffled[48], shuffled[49], shuffled[50], shuffled[51]];
  }

  /** Take the top card of the deck into the player's hand. */
  function Hit(t: Table): (t': Table)
    requires |t.deck| > 0
    ensures t'.player == t.player + [t.deck[|t.deck| - 1]]
    ensures t'.deck + [t.deck[|t.deck| - 1]] == t.deck
    ensures t'.phase == t.phase && t'.balance == t.balance
  {
    var n := |t.deck|;
    t.(deck := t.deck[..n - 1], player := t.player + [t.deck[n - 1]])
  }

  /** The check run whenever the player's hand changes during play: over 21
      ends the round with nothing credited; exactly 21 on more than two cards
      stands automatically. */
  function WatchPlayer(t: Table): (t': Table)
    ensures t.phase == Playing && Score(t.player) > 21 ==>
      t'.phase == GameOver && t'.balance == t.balance && t'.message == WentOver
    ensures t.phase == Playing && Score(t.player) == 21 && |t.player| > 2 ==>
      t'.phase == DealerTurn && t'.balance == t.balance
    ensures !(t.phase == Playing && (Score(t.player) > 21 || (Score(t.player) == 21 && |t.player| > 2))) ==>
      t' == t
  {
    if t.phase == Playing then
      var score := Score(t.player);
      if score > 21 then t.(phase := GameOver, message := WentOver)
      else if score == 21 && |t.player| > 2 then t.(phase := DealerTurn)
      else t
    else t
  }

  /** Stand: hand over to the dealer. */
  function Stand(t: Table): (t': Table)
    ensures t'.phase == DealerTurn
    ensures t'.player == t.player && t'.dealer == t.dealer && t'.balance == t.balance
  {
    t.(phase := DealerTurn)
  }

  /** Hit, then the check on the player's new hand. */
  function HitAndWatch(t: Table): Table
    requires |t.deck| > 0
  {
    WatchPlayer(Hit(t))
  }

  /** A hit that takes the player over 21 ends the round, the stake lost. */
  lemma BustEndsRound(t: Table)
    requires t.phase == Playing && |t.deck| > 0
    requires Score(t.player + [t.deck[|t.deck| - 1]]) > 21
    ensures HitAndWatch(t).phase == GameOver && HitAndWatch(t).balance == t.balance
  {
  }

  datatype Draw = Draw(hand: seq<Card>, deck: seq<Card>)

  /** The cards taken from the top of `deck` after `rest` is left, in the
      order they are taken. */
  function Taken(deck: seq<Card>, rest: nat): seq<Card>
    requires rest <= |deck|
    decreases |deck| - rest
  {
    if rest == |deck| then [] else [deck[|deck| - 1]] + Taken(deck[..|deck| - 1], rest)
  }

  /** The dealer draws from the top of the deck while the score is below 17.
      `None` exactly when the deck runs out first: the score stays below 17
      after every card taken, the whole deck included (the game has no card
      to draw). */
  function DealerDraw(hand: seq<Card>, deck: seq<Card>): (r: Option<Draw>)
    decreases |deck|
    ensures r.Some? ==> Completes(hand, deck, r.value)
    ensures r.None? ==> RunsOut(hand, deck)
    ensures Score(hand) >= 17 ==> r == Some(Draw(hand, deck))
  {
    if Score(hand) >= 17 then Some(Draw(hand, deck))
    else if |deck| == 0 then
      assert hand + Taken(deck, 0) == hand;
      assert (hand + Taken(deck, 0))[..|hand|] == hand;
      assert RunsOut(hand, deck);
      None
    else
      var n := |deck|;
      var r := DealerDraw(hand + [deck[n - 1]], deck[..n - 1]);
      if r.None? then
        RunsOutStep(hand, deck);
        r
      else
        CompletesStep(hand, deck, r.value);
        r
  }

  /** `d` is a completed draw from `hand` on `deck`: the cards taken off the
      top are exactly those added to the hand, the hand ends at 17 or more,
      and it was below 17 before each card taken. */
  predicate Completes(hand: seq<Card>, deck: seq<Card>, d: Draw) {
    && |d.deck| <= |deck|
    && d.deck == deck[..|d.deck|]
    && d.hand == hand + Taken(deck, |d.deck|)
    && Score(d.hand) >= 17
    && forall j :: |hand| <= j < |d.hand| ==> Score(d.hand[..j]) < 17
  }

  /** A completed draw after the top card, from a hand below 17, is a
      completed draw from that hand. */
  lemma CompletesStep(hand: seq<Card>, deck: seq<Card>, d: Draw)
    requires |deck| > 0 && Score(hand) < 17
    requires Completes(hand + [deck[|deck| - 1]], deck[..|deck| - 1], d)
    ensures Completes(hand, deck, d)
  {
    var n := |deck|;
    var rest := |d.deck|;
    assert deck[..n - 1][..rest] == deck[..rest];
    TakenTop(deck, rest);
    assert d.hand == hand + Taken(deck, rest);
    BelowUntilEnd(hand, d.hand);
  }

  /** The dealer, starting from `hand`, takes every card of `deck` from the
      top and stays below 17 after each card, the last one included. */
  predicate RunsOut(hand: seq<Card>, deck: seq<Card>) {
    && |Taken(deck, 0)| == |deck|
    && forall j :: |hand| <= j <= |hand| + |deck| ==> Score((hand + Taken(deck, 0))[..j]) < 17
  }

  /** Running out from `hand` is staying below 17 there and then running
      out, after the top card, on the rest of the deck. */
  lemma RunsOutStep(hand: seq<Card>, deck: seq<Card>)
    requires |deck| > 0 && Score(hand) < 17
    requires RunsOut(hand + [deck[|deck| - 1]], deck[..|deck| - 1])
    ensures RunsOut(hand, deck)
  {
    var n := |deck|;
    TakenTop(deck, 0);
    var all := hand + Taken(deck, 0);
    assert all == (hand + [deck[n - 1]]) + Taken(deck[..n - 1], 0);
    assert all[..|hand|] == hand;
  }

  /** Taking from the top: the top card comes first, then what is taken
      from the rest of the deck. */
  lemma TakenTop(deck: seq<Card>, rest: nat)
    requires rest < |deck|
    ensures Taken(deck, rest) == [deck[|deck| - 1]] + Taken(deck[..|deck| - 1], rest)
  {
  }

  /** A hand below 17 that was below 17 after each later card until the last
      was below 17 at every point from the start. */
  lemma BelowUntilEnd(hand: seq<Card>, h: seq<Card>)
    requires |hand| < |h| && h[..|hand|] == hand && Score(hand) < 17
    requires forall j :: |hand| + 1 <= j < |h| ==> Score(h[..j]) < 17
    ensures forall j :: |hand| <= j < |h| ==> Score(h[..j]) < 17
  {
  }

  /** A completed draw ends at 17 or more, and a dealer below 17 takes at
      least one card. */
  lemma DealerStopsAt17(hand: seq<Card>, deck: seq<Card>)
    requires DealerDraw(hand, deck).Some?
    ensures Score(DealerDraw(hand, deck).value.hand) >= 17
    ensures Score(hand) < 17 ==> |DealerDraw(hand, deck).value.hand| > |hand|
  {
  }

  /** A 9 alone scores 9; with an ace it is a soft 20. */
  lemma NineAndAceScores()
    ensures Score([Card(Spades, Pip(9), 9)]) == 9
    ensures Score([Card(Spades, Pip(9), 9), Card(Clubs, Ace, 11)]) == 20
  {
    var nine := [Card(Spades, Pip(9), 9)];
    var soft := [Card(Spades, Pip(9), 9), Card(Clubs, Ace, 11)];
    assert nine[..0] == [] && soft[..1] == nine;
    assert RawSum(nine) == 9 && AceCount(nine) == 0;
    assert RawSum(soft) == 20 && AceCount(soft) == 1;
  }

  /** An ace on top stops the dealer: 9 plus the ace is a soft 20, so the
      5 under it is never drawn, even though 9, ace and 5 score only 15. */
  lemma AceOnTopStopsDealer()
    ensures DealerDraw([Card(Spades, Pip(9), 9)], [Card(Hearts, Pip(5), 5), Card(Clubs, Ace, 11)])
      == Some(Draw([Card(Spades, Pip(9), 9), Card(Clubs, Ace, 11)], [Card(Hearts, Pip(5), 5)]))
  {
    var nine := [Card(Spades, Pip(9), 9)];
    var soft := [Card(Spades, Pip(9), 9), Card(Clubs, Ace, 11)];
    var deck := [Card(Hearts, Pip(5), 5), Card(Clubs, Ace, 11)];
    NineAndAceScores();
    assert deck[..1] == [Card(Hearts, Pip(5), 5)] && nine + [deck[1]] == soft;
    assert DealerDraw(soft, deck[..1]) == Some(Draw(soft, deck[..1]));
    assert DealerDraw(nine, deck) == DealerDraw(soft, deck[..1]);
  }

  /** The dealer's turn: draw to 17 from the deck, then settle against the
      player's hand.  If the deck runs dry the turn never completes and the
      table is left as it was. */
  function DealerTurnStep(t: Table): (t': Table)
    requires t.phase == DealerTurn
    ensures DealerDraw(t.dealer, t.deck).None? ==> t' == t
    ensures DealerDraw(t.dealer, t.deck).Some? ==>
      && t'.phase == GameOver
      && Score(t'.dealer) >= 17
      && t'.balance == t.balance + Credit(Settle(Score(t.player), Score(t'.dealer), false), t.currentBet)
    ensures DealerDraw(t.dealer, t.deck).Some? ==>
      && t'.dealer == DealerDraw(t.dealer, t.deck).value.hand
      && t'.deck == DealerDraw(t.dealer, t.deck).value.deck
      && t'.player == t.player && t'.currentBet == t.currentBet
  {
    match DealerDraw(t.dealer, t.deck)
    case None => t
    case Some(d) => GameOverWith(t.(dealer := d.hand, deck := d.deck), t.player, d.hand, false)
  }

  /** Start a new round: hands cleared and the bet, already paid, forgotten. */
  function ResetGame(t: Table): (t': Table)
    ensures t'.phase == Betting && t'.currentBet == 0.0 && t'.player == [] && t'.dealer == []
    ensures t'.balance == t.balance && t'.deck == t.deck
  {
    t.(player := [], dealer := [], currentBet := 0.0, phase := Betting, message := Blank)
  }
}

=== FILE: common.dfy ===
/** Small value types shared by the game models. */
module Common {

  /** An optional value, for "no win recorded yet" and similar absent values. */
  datatype Option<+T> = None | Some(value: T)

  /** 2 to the power `k`, the glass bridge's per-step multiplier raised `k` times. */
  function Pow2(k: nat): (p: nat)
    ensures p >= 1
    ensures k > 0 ==> p >= 2 && p % 2 == 0
  {
    if k == 0 then 1 else 2 * Pow2(k - 1)
  }
}

=== FILE: glass_bridge.dfy ===
/**
 * Glass bridge: a nine-step crossing where each step has one safe pane out
 * of two.  The state machine runs betting -> playing -> gameover or
 * cashed_out, and a crossing that has survived `k` steps is worth
 * `bet * 2^k`.
 *
 * The random safe path is an input to `StartGame`.  Money is an exact real.
 */
module GlassBridge {
  import opened Common

  const TOTAL_STEPS: nat := 9

  datatype Phase = Betting | Playing | GameOver | CashedOut

  /** Pane choices: 0 is the top pane, 1 the bottom one. */
  datatype Game = Game(
    phase: Phase,
    balance: real,
    bet: real,
    safePath: seq<int>,
    step: nat,
    moves: seq<Option<int>>)

  /** A safe path: one pane, 0 or 1, per step. */
  predicate ValidPath(path: seq<int>) {
    |path| == TOTAL_STEPS && forall i :: 0 <= i < |path| ==> path[i] == 0 || path[i] == 1
  }

  /** The shape every reachable game keeps: one move slot per step, and while
      playing a valid safe path and a current step still on the bridge. */
  predicate Valid(g: Game) {
    && |g.moves| == TOTAL_STEPS
    && (g.phase == Playing ==> ValidPath(g.safePath) && g.step < TOTAL_STEPS)
  }

  /** A fresh game before the first bet. */
  function Initial(balance: real, bet: real): (g: Game)
    ensures Valid(g) && g.phase == Betting
    ensures g.balance == balance && g.bet == bet && g.step == 0
    ensures forall i :: 0 <= i < |g.moves| ==> g.moves[i] == None
  {
    Game(Betting, balance, bet, [], 0, seq(TOTAL_STEPS, _ => None))
  }

  /** What `k` completed steps are worth: the bet doubled once per step
      (the game's multiplier is 2). */
  function Winnings(bet: real, k: nat): (w: real)
    ensures k == 0 ==> w == bet
    ensures bet >= 0.0 ==> w >= bet
    ensures bet >= 0.0 && k > 0 ==> w >= 2.0 * bet
  {
    var p := Pow2(k) as real;
    assert p >= 1.0 && (k > 0 ==> p >= 2.0);
    assert bet >= 0.0 ==> bet * p - bet == bet * (p - 1.0) >= 0.0;
    assert bet >= 0.0 && k > 0 ==> bet * p - 2.0 * bet == bet * (p - 2.0) >= 0.0;
    bet * p
  }

  /** Start a crossing on `path`.  A bet above the balance is refused and
      nothing changes; otherwise the bet is debited and play starts at step
      0 with no moves made. */
  function StartGame(g: Game, path: seq<int>): (g': Game)
    requires ValidPath(path)
    ensures g.bet > g.balance ==> g' == g
    ensures g.bet <= g.balance ==>
      && g'.phase == Playing
      && g'.balance == g.balance - g.bet
      && g'.bet == g.bet
      && g'.safePath == path
      && g'.step == 0
      && |g'.moves| == TOTAL_STEPS
      && forall i :: 0 <= i < |g'.moves| ==> g'.moves[i] == None
    ensures g.bet <= g.balance ==> Valid(g')
  {
    if g.bet > g.balance then g
    else
      g.(balance := g.balance - g.bet, safePath := path, step := 0,
         moves := seq(TOTAL_STEPS, _ => None), phase := Playing)
  }

  /** Cash out after `stepsCompleted` steps: nothing happens for zero steps;
      otherwise the winnings for that many steps are credited and the game
      is over as cashed out. */
  function CashOut(g: Game, stepsCompleted: nat): (g': Game)
    ensures stepsCompleted == 0 ==> g' == g
    ensures stepsCompleted > 0 ==>
      && g'.phase == CashedOut
      && g'.balance == g.balance + Winnings(g.bet, stepsCompleted)
      && g'.step == g.step && g'.moves == g.moves && g'.bet == g.bet
  {
    if stepsCompleted == 0 then g
    else g.(balance := g.balance + Winnings(g.bet, stepsCompleted), phase := CashedOut)
  }

  /** The cash-out button: takes the steps completed so far, paying exactly
      the amount its label offers. */
  function CashOutNow(g: Game): (g': Game)
    ensures g.step == 0 ==> g' == g
    ensures g.step > 0 ==> g'.phase == CashedOut && g'.balance == g.balance + CurrentWinnings(g)
  {
    CashOut(g, g.step)
  }

  /** Jump onto pane `choice` at the current step.  The choice is recorded;
      the wrong pane ends the game with nothing paid; the right pane moves to
      the next step, or on the last step cashes out all nine. */
  function Jump(g: Game, choice: int): (g': Game)
    requires g.phase == Playing && Valid(g)
    ensures g'.moves == g.moves[g.step := Some(choice)]
    ensures choice != g.safePath[g.step] ==>
      g'.phase == GameOver && g'.balance == g.balance && g'.step == g.step
    ensures choice == g.safePath[g.step] && g.step + 1 < TOTAL_STEPS ==>
      g'.phase == Playing && g'.step == g.step + 1 && g'.balance == g.balance
    ensures choice == g.safePath[g.step] && g.step + 1 == TOTAL_STEPS ==>
      g'.phase == CashedOut && g'.balance == g.balance + Winnings(g.bet, TOTAL_STEPS)
    ensures Valid(g') && g'.safePath == g.safePath && g'.bet == g.bet
  {
    var recorded := g.(moves := g.moves[g.step := Some(choice)]);
    if choice == g.safePath[g.step] then
      if g.step + 1 >= TOTAL_STEPS then CashOut(recorded, g.step + 1)
      else recorded.(step := g.step + 1)
    else recorded.(phase := GameOver)
  }

  /** Back to betting after a finished game. */
  function NewRound(g: Game): (g': Game)
    requires g.phase == GameOver || g.phase == CashedOut
    ensures g'.phase == Betting && g'.balance == g.balance
  {
    g.(phase := Betting)
  }

  /** What the cash-out button offers now: nothing before the first step. */
  function CurrentWinnings(g: Game): (w: real)
    ensures g.step == 0 ==> w == 0.0
    ensures g.step > 0 ==> w == Winnings(g.bet, g.step)
  {
    if g.step > 0 then Winnings(g.bet, g.step) else 0.0
  }

  /** What surviving the next step would be worth: twice the winnings for
      the steps already survived. */
  function PotentialWin(g: Game): (w: real)
    ensures w == 2.0 * Winnings(g.bet, g.step)
  {
    Winnings(g.bet, g.step + 1)
  }

  /** The next step always doubles what is on offer now. */
  lemma PotentialDoublesCurrent(g: Game)
    requires g.step > 0
    ensures PotentialWin(g) == 2.0 * CurrentWinnings(g)
  {
    assert Pow2(g.step + 1) == 2 * Pow2(g.step);
  }

  /** A full crossing pays 512 times the bet. */
  lemma FullCrossingValue(bet: real)
    ensures Winnings(bet, TOTAL_STEPS) == 512.0 * bet
  {
    assert Pow2(TOTAL_STEPS) == 512;
  }

  /** Jumping the panes of `choices` one by one while the game is playing. */
  function Walk(g: Game, choices: seq<int>): (g': Game)
    requires Valid(g)
    ensures Valid(g')
    decreases |choices|
  {
    if |choices| == 0 || g.phase != Playing then g
    else Walk(Jump(g, choices[0]), choices[1..])
  }

  /** Following the safe path from step `k` to the end cashes out all nine
      steps. */
  lemma {:induction false} FollowPathCashesOut(g: Game)
    requires g.phase == Playing && Valid(g)
    ensures Walk(g, g.safePath[g.step..]).phase == CashedOut
    ensures Walk(g, g.safePath[g.step..]).balance == g.balance + Winnings(g.bet, TOTAL_STEPS)
    decreases TOTAL_STEPS - g.step
  {
    var choices := g.safePath[g.step..];
    var next := Jump(g, choices[0]);
    assert choices[1..] == g.safePath[g.step + 1..];
    if g.step + 1 < TOTAL_STEPS {
      FollowPathCashesOut(next);
    }
  }

  /** From the bet to the far side: the balance ends `511 * bet` higher. */
  lemma FullCrossingNet(g: Game, path: seq<int>)
    requires ValidPath(path) && g.bet <= g.balance
    ensures Walk(StartGame(g, path), path).balance == g.balance + 511.0 * g.bet
    ensures Walk(StartGame(g, path), path).phase == CashedOut
  {
    var s := StartGame(g, path);
    assert s.safePath[s.step..] == path;
    FollowPathCashesOut(s);
    FullCrossingValue(g.bet);
  }

  /** Cashing out `k > 0` steps after the bet nets `bet * (2^k - 1)`. */
  lemma CashOutNet(g: Game, path: seq<int>, k: nat)
    requires ValidPath(path) && g.bet <= g.balance && k > 0
    ensures CashOut(StartGame(g, path), k).balance == g.balance + g.bet * ((Pow2(k) - 1) as real)
  {
  }
}

=== FILE: plinko.dfy ===
/**
 * Plinko: the risk tables, the peg lattice, dropping a ball, the wall clamp
 * and the resolution of a ball that crosses the slot line.
 *
 * All board geometry uses the fixed constants of the game (14 rows, a
 * spacing of 40 and an 800-wide canvas), so peg coordinates are integers.
 * Money and ball positions are exact reals.  Peg collisions (square roots,
 * angles and random deflection) are not modelled: a frame's motion is an
 * input to `Frame`, constrained only to leave a ball's identity alone.
 */
module Plinko {
  import opened Common

  const ROWS: nat := 14
  const SPACING: int := 40
  const CANVAS_WIDTH: int := 800
  /** y of the first peg row */
  const TOP_MARGIN: int := 60
  const CANVAS_HEIGHT: int := TOP_MARGIN + ROWS * SPACING + 60
  /** y of the slot line a ball resolves at */
  const SLOT_Y: int := TOP_MARGIN + ROWS * SPACING + 20
  /** number of payout slots, one more than the number of rows */
  const BUCKETS: nat := ROWS + 1
  /** left edge of slot 0: the bottom row spans `ROWS + 2` pegs */
  const SLOT_START_X: int := (CANVAS_WIDTH - (ROWS + 1) * SPACING) / 2

  const GRAVITY: real := 0.25
  const FRICTION: real := 0.98
  /** fraction of horizontal speed kept, reversed, when a ball hits a wall */
  const WALL_DAMPING: real := -0.5

  // ---------------------------------------------------------------------
  // Risk tables and slot colours
  // ---------------------------------------------------------------------

  datatype Risk = Low | Medium | High

  const LOW_TABLE: seq<real> :=
    [5.6, 2.1, 1.1, 1.0, 0.5, 1.0, 0.3, 0.5, 1.0, 0.3, 0.5, 1.0, 1.1, 2.1, 5.6]
  const MEDIUM_TABLE: seq<real> :=
    [13.0, 3.0, 1.3, 0.7, 0.4, 0.2, 0.2, 0.2, 0.2, 0.2, 0.4, 0.7, 1.3, 3.0, 13.0]
  const HIGH_TABLE: seq<real> :=
    [110.0, 25.0, 12.0, 6.0, 3.0, 1.5, 0.5, 0.2, 0.5, 1.5, 3.0, 6.0, 12.0, 25.0, 110.0]

  /** The multiplier table for a risk tier: one positive entry per slot. */
  function Multipliers(risk: Risk): (t: seq<real>)
    ensures |t| == BUCKETS
    ensures forall i :: 0 <= i < |t| ==> t[i] > 0.0
  {
    match risk
    case High => HIGH_TABLE
    case Medium => MEDIUM_TABLE
    case Low => LOW_TABLE
  }

  /** A table reads the same from either end. */
  predicate Symmetric(t: seq<real>) {
    forall i :: 0 <= i < |t| ==> t[i] == t[|t| - 1 - i]
  }

  /** The medium and high tables are mirror images of themselves; the low
      table is not (slot 5 pays 1 while its mirror slot 9 pays 0.3). */
  lemma TableSymmetry()
    ensures Symmetric(Multipliers(Medium))
    ensures Symmetric(Multipliers(High))
    ensures !Symmetric(Multipliers(Low))
    ensures Multipliers(Low)[5] == 1.0 && Multipliers(Low)[9] == 0.3
  {
    assert Multipliers(Low)[5] != Multipliers(Low)[|Multipliers(Low)| - 1 - 5];
  }

  datatype SlotColor = Red | Orange | Yellow | LightYellow

  /** Colour of a slot box, by the thresholds 10, 3 and 1. */
  function SlotColorOf(m: real): (c: SlotColor)
    ensures c == Red <==> m >= 10.0
    ensures c == Orange <==> 3.0 <= m < 10.0
    ensures c == Yellow <==> 1.0 <= m < 3.0
    ensures c == LightYellow <==> m < 1.0
  {
    if m >= 10.0 then Red
    else if m >= 3.0 then Orange
    else if m >= 1.0 then Yellow
    else LightYellow
  }

  /** How "hot" a colour is: light yellow 0 up to red 3. */
  function Heat(c: SlotColor): nat {
    match c
    case LightYellow => 0
    case Yellow => 1
    case Orange => 2
    case Red => 3
  }

  /** A larger multiplier never gets a cooler colour. */
  lemma SlotColorMonotone(m1: real, m2: real)
    requires m1 <= m2
    ensures Heat(SlotColorOf(m1)) <= Heat(SlotColorOf(m2))
  {
  }

  /** On the medium table the edge slots are red and the five centre slots
      light yellow. */
  lemma MediumTableColors()
    ensures SlotColorOf(Multipliers(Medium)[0]) == Red
    ensures SlotColorOf(Multipliers(Medium)[14]) == Red
    ensures forall i :: 5 <= i <= 9 ==> SlotColorOf(Multipliers(Medium)[i]) == LightYellow
  {
  }

  // ---------------------------------------------------------------------
  // Peg lattice
  // ---------------------------------------------------------------------

  datatype Peg = Peg(x: int, y: int)

  /** Row `row` holds `row + 3` pegs. */
  function PegsInRow(row: nat): nat {
    row + 3
  }

  /** Number of pegs in the rows above `row`. */
  function PegsBefore(row: nat): nat {
    if row == 0 then 0 else PegsBefore(row - 1) + PegsInRow(row - 1)
  }

  /** Position in the generated list of peg `col` of row `row`. */
  function PegIndex(row: nat, col: nat): nat {
    PegsBefore(row) + col
  }

  /** x of the leftmost peg of a row, which centres the row on the canvas. */
  function RowStartX(row: nat): int {
    (CANVAS_WIDTH - (PegsInRow(row) - 1) * SPACING) / 2
  }

  /** Where peg `col` of row `row` sits. */
  function LatticePeg(row: nat, col: nat): Peg {
    Peg(RowStartX(row) + col * SPACING, TOP_MARGIN + row * SPACING)
  }

  /** Closed form of the peg count: rows 0..r-1 hold 3 + 4 + ... + (r + 2) pegs. */
  lemma {:induction false} PegsBeforeClosedForm(row: nat)
    ensures 2 * PegsBefore(row) == row * (row + 5)
  {
    if row > 0 {
      PegsBeforeClosedForm(row - 1);
    }
  }

  /** Later rows start after every peg of earlier rows. */
  lemma {:induction false} PegsBeforeGrows(r: nat, row: nat)
    requires r < row
    ensures PegsBefore(r) + PegsInRow(r) <= PegsBefore(row)
  {
    if r + 1 < row {
      PegsBeforeGrows(r, row - 1);
    }
  }

  /** The 14-row board has 133 pegs; a 5-row board has rows of 3..7 pegs, 25 in all. */
  lemma PegTotals()
    ensures PegsBefore(ROWS) == 133
    ensures PegsBefore(5) == 25
  {
    PegsBeforeClosedForm(ROWS);
    PegsBeforeClosedForm(5);
  }

  /** Every row is spaced `SPACING` apart, sits `SPACING` below the previous
      one, and is centred on the canvas: pegs `col` and `row + 2 - col` are
      mirror images about x = CANVAS_WIDTH / 2. */
  lemma LatticeGeometry(row: nat, col: nat)
    requires col < PegsInRow(row)
    ensures LatticePeg(row, col).y == TOP_MARGIN + row * SPACING
    ensures col + 1 < PegsInRow(row) ==>
      LatticePeg(row, col + 1).x - LatticePeg(row, col).x == SPACING
    ensures LatticePeg(row, col).x + LatticePeg(row, PegsInRow(row) - 1 - col).x == CANVAS_WIDTH
    ensures LatticePeg(row, 0).x + LatticePeg(row, PegsInRow(row) - 1).x == CANVAS_WIDTH
  {
    assert RowStartX(row) == 360 - 20 * row;
    assert forall c: nat :: LatticePeg(row, c).x == 360 - 20 * row + 40 * c;
  }

  /** The peg generator: rows top to bottom, pegs left to right. */
  method GeneratePegs(rows: nat) returns (pegs: seq<Peg>)
    ensures |pegs| == PegsBefore(rows)
    ensures forall r: nat, c: nat {:trigger PegIndex(r, c)} :: r < rows && c < PegsInRow(r) ==>
      PegIndex(r, c) < |pegs| && pegs[PegIndex(r, c)] == LatticePeg(r, c)
  {
    pegs := [];
    var row := 0;
    while row < rows
      invariant row <= rows
      invariant |pegs| == PegsBefore(row)
      invariant forall r: nat, c: nat {:trigger PegIndex(r, c)} :: r < row && c < PegsInRow(r) ==>
        PegIndex(r, c) < |pegs| && pegs[PegIndex(r, c)] == LatticePeg(r, c)
    {
      var pegsInRow := row + 3;
      var rowWidth := (pegsInRow - 1) * SPACING;
      var startX := (CANVAS_WIDTH - rowWidth) / 2;
      var col := 0;
      while col < pegsInRow
        invariant col <= pegsInRow
        invariant |pegs| == PegsBefore(row) + col
        invariant forall r: nat, c: nat {:trigger PegIndex(r, c)} :: r < row && c < PegsInRow(r) ==>
          PegIndex(r, c) < |pegs| && pegs[PegIndex(r, c)] == LatticePeg(r, c)
        invariant forall c: nat :: c < col ==> pegs[PegIndex(row, c)] == LatticePeg(row, c)
      {
        pegs := pegs + [Peg(startX + col * SPACING, TOP_MARGIN + row * SPACING)];
        col := col + 1;
      }
      forall r: nat, c: nat | r < row + 1 && c < PegsInRow(r)
        ensures PegIndex(r, c) < |pegs| && pegs[PegIndex(r, c)] == LatticePeg(r, c)
      {
        if r < row {
          PegsBeforeGrows(r, row);
        }
      }
      row := row + 1;
    }
  }

  // ---------------------------------------------------------------------
  // Balls and the game state
  // ---------------------------------------------------------------------

  datatype Ball = Ball(id: nat, x: real, y: real, vx: real, vy: real, active: bool, val: real)

  datatype State = State(
    balance: real,
    bet: real,
    risk: Risk,
    autoRunning: bool,
    nextId: nat,
    balls: seq<Ball>,
    lastWin: Option<real>)

  /** The live ball list: every ball active, ids strictly increasing in
      list order and all below the next id to hand out. */
  predicate Valid(s: State) {
    && (forall i :: 0 <= i < |s.balls| ==> s.balls[i].active && s.balls[i].id < s.nextId)
    && (forall i, j :: 0 <= i < j < |s.balls| ==> s.balls[i].id < s.balls[j].id)
  }

  /** Choosing a different risk tier switches auto-play off; picking the
      tier already selected changes nothing, since the effect that stops
      auto-play only runs when the tier changes. */
  function SetRisk(s: State, risk: Risk): (s': State)
    ensures s'.risk == risk && Multipliers(s'.risk) == Multipliers(risk)
    ensures risk == s.risk ==> s' == s
    ensures risk != s.risk ==> !s'.autoRunning
    ensures s'.balance == s.balance && s'.balls == s.balls && s'.bet == s.bet
  {
    if risk == s.risk then s else s.(risk := risk, autoRunning := false)
  }

  /** Drop one ball.  `u1` and `u2` are the two random draws in [0, 1) that
      jitter the drop point and the initial horizontal speed.  Without the
      funds for the bet nothing drops and auto-play stops; otherwise the bet
      is debited and exactly one active ball carrying it is appended. */
  function DropBall(s: State, u1: real, u2: real): (s': State)
    requires 0.0 <= u1 < 1.0 && 0.0 <= u2 < 1.0
    ensures s.balance < s.bet ==> s' == s.(autoRunning := false)
    ensures s.balance >= s.bet ==>
      && s'.balance == s.balance - s.bet
      && |s'.balls| == |s.balls| + 1
      && s'.balls[..|s.balls|] == s.balls
      && s'.balls[|s.balls|].active
      && s'.balls[|s.balls|].val == s.bet
      && s'.balls[|s.balls|].id == s.nextId
      && s'.nextId == s.nextId + 1
      && 395.0 <= s'.balls[|s.balls|].x < 405.0
      && -1.0 <= s'.balls[|s.balls|].vx < 1.0
      && s'.balls[|s.balls|].y == 20.0 && s'.balls[|s.balls|].vy == 0.0
      && s'.bet == s.bet && s'.risk == s.risk && s'.autoRunning == s.autoRunning
      && s'.lastWin == s.lastWin
  {
    if s.balance < s.bet then
      s.(autoRunning := false)
    else
      var dropX := (CANVAS_WIDTH as real) / 2.0 + (u1 - 0.5) * 10.0;
      var ball := Ball(s.nextId, dropX, 20.0, (u2 - 0.5) * 2.0, 0.0, true, s.bet);
      s.(balance := s.balance - s.bet, nextId := s.nextId + 1, balls := s.balls + [ball])
  }

  /** Dropping keeps the ball list valid: the new ball's id is the largest. */
  lemma DropPreservesValid(s: State, u1: real, u2: real)
    requires Valid(s)
    requires 0.0 <= u1 < 1.0 && 0.0 <= u2 < 1.0
    ensures Valid(DropBall(s, u1, u2))
  {
  }

  /** Auto-play with less money than the bet halts at its first attempt,
      having dropped nothing. */
  lemma AutoPlayHalts(s: State, u1: real, u2: real)
    requires s.autoRunning && s.balance == 5.0 && s.bet == 10.0
    requires 0.0 <= u1 < 1.0 && 0.0 <= u2 < 1.0
    ensures DropBall(s, u1, u2).balls == s.balls
    ensures DropBall(s, u1, u2).balance == 5.0
    ensures !DropBall(s, u1, u2).autoRunning
  {
  }

  // ---------------------------------------------------------------------
  // Motion: gravity, friction and the wall clamp
  // ---------------------------------------------------------------------

  /** Keep a ball between the side walls, reversing and halving its
      horizontal speed when it is pushed back. */
  function WallClamp(b: Ball): (c: Ball)
    ensures 0.0 <= c.x <= CANVAS_WIDTH as real
    ensures b.x < 0.0 ==> c.x == 0.0 && c.vx == -0.5 * b.vx
    ensures b.x > CANVAS_WIDTH as real ==> c.x == CANVAS_WIDTH as real && c.vx == -0.5 * b.vx
    ensures 0.0 <= b.x <= CANVAS_WIDTH as real ==> c == b
    ensures c.y == b.y && c.vy == b.vy && c.id == b.id && c.val == b.val && c.active == b.active
  {
    var left := if b.x < 0.0 then b.(x := 0.0, vx := b.vx * WALL_DAMPING) else b;
    if left.x > CANVAS_WIDTH as real then left.(x := CANVAS_WIDTH as real, vx := left.vx * WALL_DAMPING)
    else left
  }

  /** One frame's motion before peg collisions: gravity, friction, a step of
      the new velocity, then the wall clamp. */
  function Move(b: Ball): (c: Ball)
    ensures 0.0 <= c.x <= CANVAS_WIDTH as real
    ensures c.vy == b.vy + GRAVITY && c.y == b.y + c.vy
    ensures 0.0 <= b.x + b.vx * FRICTION <= CANVAS_WIDTH as real ==>
      c.vx == b.vx * FRICTION && c.x == b.x + b.vx * FRICTION
    ensures b.x + b.vx * FRICTION < 0.0 ==> c.x == 0.0 && c.vx == -0.5 * (b.vx * FRICTION)
    ensures b.x + b.vx * FRICTION > CANVAS_WIDTH as real ==>
      c.x == CANVAS_WIDTH as real && c.vx == -0.5 * (b.vx * FRICTION)
    ensures c.id == b.id && c.val == b.val && c.active == b.active
  {
    var vx := b.vx * FRICTION;
    var vy := b.vy + GRAVITY;
    WallClamp(b.(vx := vx, vy := vy, x := b.x + vx, y := b.y + vy))
  }

  /** A ball inside the walls that the clamp pushes back leaves heading
      back into the board. */
  lemma ClampedBallHeadsInward(b: Ball)
    requires 0.0 <= b.x <= CANVAS_WIDTH as real
    ensures Move(b).x == 0.0 && b.x + b.vx * FRICTION < 0.0 ==> Move(b).vx > 0.0
    ensures Move(b).x == CANVAS_WIDTH as real && b.x + b.vx * FRICTION > CANVAS_WIDTH as real ==>
      Move(b).vx < 0.0
  {
  }

  // ---------------------------------------------------------------------
  // Resolution at the slot line
  // ---------------------------------------------------------------------

  /** `x` lies in the strip of slot `i`: [100 + 40 i, 140 + 40 i). */
  predicate InSlot(x: real, i: int) {
    100.0 + 40.0 * (i as real) <= x < 140.0 + 40.0 * (i as real)
  }

  /** Slot a ball at horizontal position `x` falls into (may be out of
      range): the strip of width 40, counted from x = 100, that holds `x`. */
  function BucketIndex(x: real): (i: int)
    ensures InSlot(x, i)
  {
    var q := (x - SLOT_START_X as real) / SPACING as real;
    assert x == 100.0 + 40.0 * q;
    q.Floor
  }

  /** Slot `i` covers exactly the half-open strip [100 + 40 i, 140 + 40 i). */
  lemma BucketIndexStrip(x: real, i: int)
    ensures BucketIndex(x) == i <==>
      (SLOT_START_X + i * SPACING) as real <= x < (SLOT_START_X + (i + 1) * SPACING) as real
  {
    var q := (x - SLOT_START_X as real) / SPACING as real;
    assert x == SLOT_START_X as real + q * SPACING as real;
  }

  /** x at which the label of slot `i` is drawn (the centre of its box). */
  function SlotCentre(i: int): real {
    (SLOT_START_X + i * SPACING) as real + (SPACING as real) / 2.0
  }

  /** The label drawn for slot `i` sits over the strip that pays slot `i`. */
  lemma LabelMatchesBucket(i: int)
    requires 0 <= i < BUCKETS
    ensures BucketIndex(SlotCentre(i)) == i
  {
    BucketIndexStrip(SlotCentre(i), i);
  }

  /** A ball that crosses the slot line this frame into one of the table's
      slots, and so is paid. */
  predicate Credited(b: Ball, table: seq<real>) {
    b.active && b.y > SLOT_Y as real && 0 <= BucketIndex(b.x) < |table|
  }

  /** What a ball is credited when it resolves this frame: its stake times the
      multiplier of its slot if it crossed the slot line into one of the
      table's slots, otherwise nothing. */
  function Payout(b: Ball, table: seq<real>): (p: real)
    ensures !Credited(b, table) ==> p == 0.0
    ensures forall i :: 0 <= i < |table| && Credited(b, table) && InSlot(b.x, i) ==> p == b.val * table[i]
    ensures b.val >= 0.0 && NonNegative(table) ==> p >= 0.0
  {
    if Credited(b, table) then b.val * table[BucketIndex(b.x)] else 0.0
  }

  /** Every multiplier of a table is at least 0. */
  predicate NonNegative(table: seq<real>) {
    forall i :: 0 <= i < |table| ==> table[i] >= 0.0
  }

  /** Total credit for a list of balls: nothing when no ball is credited,
      never negative for non-negative stakes and multipliers. */
  function TotalPayout(balls: seq<Ball>, table: seq<real>): (t: real)
    ensures (forall i :: 0 <= i < |balls| ==> !Credited(balls[i], table)) ==> t == 0.0
    ensures (forall i :: 0 <= i < |balls| ==> balls[i].val >= 0.0) && NonNegative(table) ==> t >= 0.0
  {
    if |balls| == 0 then 0.0 else Payout(balls[0], table) + TotalPayout(balls[1..], table)
  }

  /** A ball that is still falling after this frame. */
  predicate StillFalling(b: Ball) {
    b.active && b.y <= SLOT_Y as real
  }

  /** No ball after position `k` is credited. */
  predicate LastCredited(balls: seq<Ball>, table: seq<real>, k: nat) {
    forall j :: k < j < |balls| ==> !Credited(balls[j], table)
  }

  /** The last win shown after a frame, read from the end of the list: the
      payout of the last credited ball, or `lastWin` when none is credited. */
  function LastWin(balls: seq<Ball>, table: seq<real>, lastWin: Option<real>): Option<real> {
    if |balls| == 0 then lastWin
    else if Credited(balls[|balls| - 1], table) then Some(Payout(balls[|balls| - 1], table))
    else LastWin(balls[..|balls| - 1], table, lastWin)
  }

  /** The last win over two lists in a row is the last win over the second,
      starting from the last win over the first. */
  lemma {:induction false} LastWinSplit(a: seq<Ball>, c: seq<Ball>, table: seq<real>, lastWin: Option<real>)
    ensures LastWin(a + c, table, lastWin) == LastWin(c, table, LastWin(a, table, lastWin))
    decreases |c|
  {
    if |c| == 0 {
      assert a + c == a;
    } else {
      assert (a + c)[..|a + c| - 1] == a + c[..|c| - 1];
      LastWinSplit(a, c[..|c| - 1], table, lastWin);
    }
  }

  /** The last win is the payout of the last credited ball: the one at
      position `k` with no credited ball after it. */
  lemma {:induction false} LastWinIsLastCredited(balls: seq<Ball>, table: seq<real>, lastWin: Option<real>, k: nat)
    requires k < |balls| && Credited(balls[k], table) && LastCredited(balls, table, k)
    ensures LastWin(balls, table, lastWin) == Some(Payout(balls[k], table))
    decreases |balls|
  {
    if k < |balls| - 1 {
      LastWinIsLastCredited(balls[..|balls| - 1], table, lastWin, k);
    }
  }

  /** With no ball credited the last win stays as it was. */
  lemma {:induction false} LastWinUncredited(balls: seq<Ball>, table: seq<real>, lastWin: Option<real>)
    requires forall i :: 0 <= i < |balls| ==> !Credited(balls[i], table)
    ensures LastWin(balls, table, lastWin) == lastWin
  {
    if |balls| > 0 {
      LastWinUncredited(balls[..|balls| - 1], table, lastWin);
    }
  }

  /** One pass of the resolution block over the list of balls: a crossing
      ball is credited (when its slot is on the table), recorded as the last
      win and dropped from the list; a ball below the canvas is dropped;
      every other active ball is kept in order. */
  function ResolveBalls(balls: seq<Ball>, table: seq<real>, lastWin: Option<real>)
    : (r: (seq<Ball>, real, Option<real>))
    ensures forall b :: b in r.0 ==> b in balls && StillFalling(b)
    ensures forall b :: b in balls && StillFalling(b) ==> b in r.0
    ensures r.1 == TotalPayout(balls, table)
    ensures |r.0| <= |balls|
    ensures (forall i :: 0 <= i < |balls| ==> !Credited(balls[i], table)) ==> r.2 == lastWin
    ensures |balls| > 0 && Credited(balls[|balls| - 1], table) ==>
      r.2 == Some(Payout(balls[|balls| - 1], table))
    ensures r.2 == LastWin(balls, table, lastWin)
  {
    if |balls| == 0 then ([], 0.0, lastWin)
    else
      var b := balls[0];
      var keep := b.active && !(b.y > SLOT_Y as real) && !(b.y > CANVAS_HEIGHT as real);
      var rest := ResolveBalls(balls[1..], table, if Credited(b, table) then Some(Payout(b, table)) else lastWin);
      LastWinSplit([b], balls[1..], table, lastWin);
      assert [b] + balls[1..] == balls;
      assert |balls| > 1 ==> balls[|balls| - 1] == balls[1..][|balls[1..]| - 1];
      (if keep then [b] + rest.0 else rest.0, Payout(b, table) + rest.1, rest.2)
  }

  /** Ball lists that differ only in position and velocity: what a frame's
      physics may do to the live balls. */
  predicate SameBalls(before: seq<Ball>, after: seq<Ball>) {
    && |before| == |after|
    && forall i :: 0 <= i < |before| ==>
      after[i].id == before[i].id && after[i].val == before[i].val && after[i].active == before[i].active
  }

  /** One frame: `moved` is the live list after this frame's motion and peg
      collisions; crossing balls are paid and removed. */
  function Frame(s: State, moved: seq<Ball>): (s': State)
    requires SameBalls(s.balls, moved)
    ensures s'.balance == s.balance + TotalPayout(moved, Multipliers(s.risk))
    ensures forall b :: b in s'.balls ==> b in moved && StillFalling(b)
    ensures forall b :: b in moved && StillFalling(b) ==> b in s'.balls
    ensures s'.nextId == s.nextId && s'.bet == s.bet && s'.risk == s.risk
    ensures s'.lastWin == LastWin(moved, Multipliers(s.risk), s.lastWin) && s'.autoRunning == s.autoRunning
  {
    var r := ResolveBalls(moved, Multipliers(s.risk), s.lastWin);
    s.(balance := s.balance + r.1, balls := r.0, lastWin := r.2)
  }

  /** Ids strictly increasing in list order. */
  predicate IdsIncreasing(balls: seq<Ball>) {
    forall i, j :: 0 <= i < j < |balls| ==> balls[i].id < balls[j].id
  }

  /** Resolution keeps the surviving balls in their original order, so their
      ids stay strictly increasing. */
  lemma {:induction false} ResolveKeepsOrder(balls: seq<Ball>, table: seq<real>, lastWin: Option<real>)
    requires IdsIncreasing(balls)
    ensures IdsIncreasing(ResolveBalls(balls, table, lastWin).0)
  {
    if |balls| > 0 {
      var b := balls[0];
      var tail := balls[1..];
      var last' := if Credited(b, table) then Some(Payout(b, table)) else lastWin;
      ResolveKeepsOrder(tail, table, last');
      var rest := ResolveBalls(tail, table, last').0;
      forall c | c in rest
        ensures b.id < c.id
      {
        assert c in tail;
        var k :| 0 <= k < |tail| && tail[k] == c;
        assert balls[k + 1] == tail[k];
      }
      ResolveFirst(balls, table, lastWin);
      PrependIncreasing(b, rest);
    }
  }

  /** The kept list of a non-empty list: the first ball, when still
      falling, followed by what the rest keeps. */
  lemma ResolveFirst(balls: seq<Ball>, table: seq<real>, lastWin: Option<real>)
    requires |balls| > 0
    ensures var b := balls[0];
      var last' := if Credited(b, table) then Some(Payout(b, table)) else lastWin;
      ResolveBalls(balls, table, lastWin).0 ==
        (if StillFalling(b) then [b] + ResolveBalls(balls[1..], table, last').0
         else ResolveBalls(balls[1..], table, last').0)
  {
  }

  /** A ball with a smaller id than every ball of an increasing list keeps
      it increasing when put in front. */
  lemma PrependIncreasing(b: Ball, rest: seq<Ball>)
    requires IdsIncreasing(rest) && forall c :: c in rest ==> b.id < c.id
    ensures IdsIncreasing([b] + rest)
  {
    var out := [b] + rest;
    forall i, j | 0 <= i < j < |out|
      ensures out[i].id < out[j].id
    {
      assert out[j] == rest[j - 1];
      if i > 0 {
        assert out[i] == rest[i - 1];
      }
    }
  }

  /** A frame keeps the live list valid. */
  lemma FramePreservesValid(s: State, moved: seq<Ball>)
    requires Valid(s) && SameBalls(s.balls, moved)
    ensures Valid(Frame(s, moved))
  {
    assert IdsIncreasing(moved);
    ResolveKeepsOrder(moved, Multipliers(s.risk), s.lastWin);
    var out := Frame(s, moved).balls;
    forall i | 0 <= i < |out|
      ensures out[i].active && out[i].id < s.nextId
    {
      assert out[i] in out;
      assert out[i] in moved;
      var k :| 0 <= k < |moved| && moved[k] == out[i];
    }
  }

  /** A ball is resolved at most once: once it crosses the slot line in a
      frame it is no longer live, so no later frame can pay it again. */
  lemma ResolvedAtMostOnce(s: State, moved: seq<Ball>, k: int)
    requires Valid(s) && SameBalls(s.balls, moved)
    requires 0 <= k < |moved| && moved[k].y > SLOT_Y as real
    ensures forall b :: b in Frame(s, moved).balls ==> b.id != moved[k].id
  {
    forall b | b in Frame(s, moved).balls
      ensures b.id != moved[k].id
    {
      var j :| 0 <= j < |moved| && moved[j] == b;
      if j != k {
        assert s.balls[j].id != s.balls[k].id by {
          if j < k {
            assert s.balls[j].id < s.balls[k].id;
          } else {
            assert s.balls[k].id < s.balls[j].id;
          }
        }
      }
    }
  }

  /** Worked slots on the medium table with a stake of 10: the centre slot
      pays 2 and the edge slot 130. */
  lemma MediumTableScenarios(b: Ball)
    requires b.active && b.val == 10.0 && b.y > SLOT_Y as real
    ensures b.x == SlotCentre(7) ==> Payout(b, Multipliers(Medium)) == 2.0
    ensures b.x == SlotCentre(0) ==> Payout(b, Multipliers(Medium)) == 130.0
  {
    LabelMatchesBucket(7);
    LabelMatchesBucket(0);
  }

  /** The slot strips cover x in [100, 700) only: a ball clamped to the left
      wall (x = 0) or resting on the right wall (x = 800) crosses the slot
      line and pays nothing. */
  lemma WallBallsPayNothing(b: Ball, risk: Risk)
    requires b.active && b.y > SLOT_Y as real
    requires b.x == 0.0 || b.x == CANVAS_WIDTH as real
    ensures Payout(b, Multipliers(risk)) == 0.0
  {
    if b.x == 0.0 {
      BucketIndexStrip(b.x, -3);
    } else {
      BucketIndexStrip(b.x, 17);
    }
  }

  /** A single drop followed by the frame in which that ball crosses the slot
      line: the balance changes by minus the stake plus the stake times the
      slot's multiplier, and the ball is gone. */
  lemma SingleDropConservation(s: State, u1: real, u2: real, x: real, y: real)
    requires s.balls == [] && s.balance >= s.bet
    requires 0.0 <= u1 < 1.0 && 0.0 <= u2 < 1.0
    requires y > SLOT_Y as real
    requires 0 <= BucketIndex(x) < BUCKETS
    ensures var s1 := DropBall(s, u1, u2);
      var s2 := Frame(s1, [s1.balls[0].(x := x, y := y)]);
      && s2.balance == s.balance - s.bet + s.bet * Multipliers(s.risk)[BucketIndex(x)]
      && s2.balls == []
  {
    var s1 := DropBall(s, u1, u2);
    var moved := [s1.balls[0].(x := x, y := y)];
    assert TotalPayout(moved, Multipliers(s.risk)) == s.bet * Multipliers(s.risk)[BucketIndex(x)] by {
      assert moved[1..] == [];
    }
  }
}

=== FILE: wallet.dfy ===
/**
 * The wallet endpoint: one POST that reads a user's balance, applies an
 * action to it and stores the result.
 *
 * The database is a map from user id to balance; a query becomes a map
 * lookup and an UPDATE a map update.  A missing (or otherwise false-valued)
 * user id is the empty string.  Amounts are exact reals.
 */
module Wallet {

  datatype Action = BalanceQuery | Deposit | Withdraw | Bet | Payout | Unknown

  /** The action named in a request. */
  function ParseAction(name: string): (a: Action)
    ensures a == BalanceQuery <==> name == "balance"
    ensures a == Deposit <==> name == "deposit"
    ensures a == Withdraw <==> name == "withdraw"
    ensures a == Bet <==> name == "bet"
    ensures a == Payout <==> name == "payout"
  {
    if name == "balance" then BalanceQuery
    else if name == "deposit" then Deposit
    else if name == "withdraw" then Withdraw
    else if name == "bet" then Bet
    else if name == "payout" then Payout
    else Unknown
  }

  /** The outcome of applying an action to a balance: the new balance and
      whether it must be written back, or a refusal. */
  datatype Applied = Stored(newBalance: real) | Unchanged(balance: real) | InsufficientFunds

  /** The action dispatch on a balance. */
  function Apply(balance: real, action: Action, amount: real): (r: Applied)
    ensures action in {BalanceQuery, Unknown} ==> r == Unchanged(balance)
    ensures action in {Deposit, Payout} ==> r == Stored(balance + amount)
    ensures action == Withdraw ==> r == Stored(0.0)
    ensures action == Bet && balance < amount ==> r == InsufficientFunds
    ensures action == Bet && balance >= amount ==> r == Stored(balance - amount) && r.newBalance >= 0.0
  {
    match action
    case BalanceQuery => Unchanged(balance)
    case Deposit => Stored(balance + amount)
    case Withdraw => Stored(0.0)
    case Bet => if balance < amount then InsufficientFunds else Stored(balance - amount)
    case Payout => Stored(balance + amount)
    case Unknown => Unchanged(balance)
  }

  datatype Response = Ok(balance: real) | Error(status: nat, message: string)

  /** Handle one request against the wallet table; returns the response and
      the table afterwards. */
  function Post(wallets: map<string, real>, userId: string, action: string, amount: real)
    : (r: (Response, map<string, real>))
    ensures userId == "" ==> r == (Error(400, "User ID required"), wallets)
    ensures userId != "" && userId !in wallets ==> r == (Error(404, "Wallet not found"), wallets)
    ensures r.0.Error? ==> r.1 == wallets
    ensures r.0.Ok? ==> userId in wallets && userId in r.1 && r.1[userId] == r.0.balance
    ensures r.1.Keys == wallets.Keys
    ensures forall u :: u in wallets && u != userId ==> r.1[u] == wallets[u]
  {
    if userId == "" then (Error(400, "User ID required"), wallets)
    else if userId !in wallets then (Error(404, "Wallet not found"), wallets)
    else
      match Apply(wallets[userId], ParseAction(action), amount)
      case InsufficientFunds => (Error(400, "Insufficient funds"), wallets)
      case Unchanged(b) => (Ok(b), wallets)
      case Stored(b) => (Ok(b), wallets[userId := b])
  }

  /** Per action, for a user with a wallet: a balance query or an unknown
      action returns the balance and writes nothing; deposit and payout add
      the amount; withdraw empties the wallet; a bet beyond the balance is
      refused with nothing written, and otherwise takes the amount off. */
  lemma PostActions(wallets: map<string, real>, userId: string, action: string, amount: real)
    requires userId != "" && userId in wallets
    ensures action != "deposit" && action != "withdraw" && action != "bet" && action != "payout" ==>
      Post(wallets, userId, action, amount) == (Ok(wallets[userId]), wallets)
    ensures action == "deposit" || action == "payout" ==>
      Post(wallets, userId, action, amount) == (Ok(wallets[userId] + amount), wallets[userId := wallets[userId] + amount])
    ensures action == "withdraw" ==>
      Post(wallets, userId, action, amount) == (Ok(0.0), wallets[userId := 0.0])
    ensures action == "bet" && wallets[userId] < amount ==>
      Post(wallets, userId, action, amount) == (Error(400, "Insufficient funds"), wallets)
    ensures action == "bet" && wallets[userId] >= amount ==>
      && Post(wallets, userId, action, amount) == (Ok(wallets[userId] - amount), wallets[userId := wallets[userId] - amount])
      && wallets[userId] - amount >= 0.0
  {
    var a := ParseAction(action);
    if a == BalanceQuery || a == Unknown {
      assert Post(wallets, userId, action, amount).1 == wallets;
    }
  }

  /** A bet followed by a payout of the same amount leaves the wallet as it
      was. */
  lemma BetThenPayoutRestores(wallets: map<string, real>, userId: string, amount: real)
    requires userId != "" && userId in wallets && wallets[userId] >= amount
    ensures var afterBet := Post(wallets, userId, "bet", amount).1;
      Post(afterBet, userId, "payout", amount).1 == wallets
  {
    var afterBet := Post(wallets, userId, "bet", amount).1;
    assert Post(afterBet, userId, "payout", amount).1[userId] == wallets[userId];
  }

  /** A deposit into a non-negative wallet can be bet again in full,
      restoring the wallet. */
  lemma DepositThenBetRestores(wallets: map<string, real>, userId: string, amount: real)
    requires userId != "" && userId in wallets && wallets[userId] >= 0.0
    ensures var afterDeposit := Post(wallets, userId, "deposit", amount).1;
      Post(afterDeposit, userId, "bet", amount) == (Ok(wallets[userId]), wallets)
  {
    var b := wallets[userId];
    var afterDeposit := Post(wallets, userId, "deposit", amount).1;
    assert afterDeposit == wallets[userId := b + amount];
    assert ParseAction("bet") == Bet;
    assert afterDeposit[userId := b] == wallets;
  }

  /** No request drives a non-negative wallet negative when the amounts
      credited are non-negative. */
  lemma BalancesStayNonNegative(wallets: map<string, real>, userId: string, action: string, amount: real)
    requires forall u :: u in wallets ==> wallets[u] >= 0.0
    requires amount >= 0.0
    ensures var r := Post(wallets, userId, action, amount).1;
      forall u :: u in r ==> r[u] >= 0.0
  {
  }
}
